=== FILE: README.md ===
# rsbudget entry core in Dafny

rsbudget is a terminal expense tracker. A person opens an entry form with
`i`, types a name, a tag, a date and an amount into four boxes, and hands
the finished record to an embedded SQLite table. This project models the
core of it:

- **Record** (`record.dfy`): the `Expense` record. It has a 16-byte id, a
  name, a tag, a 64-bit nanosecond timestamp and a 32-bit amount, and two
  records are equal exactly when their ids are. It also has the all-zero
  `empty` record, the constructor and the setters.
- **Syntax** (`syntax.dfy`): `parse_date`, the cascading date parser. It
  tries `YYYY-MM-DD`, then `DD/MM/YYYY`, then `DD/MM` completed with the
  current year, then `DD` completed with the current month and year. Every
  reading must name a real day of the Gregorian calendar.
  - chrono's format reading is modelled as a small scanner. A numeric field
    takes the longest run of one up to its width of digits (4 for `%Y`, 2
    for `%m` and `%d`). A literal must match exactly, and no text may be
    left over.
  - Today's year and month are a parameter (`Today`).
- **App** (`main.dfy`): the key-driven entry loop inside `run`.
  - A pure transition function `Next` handles one event, and `Replay`
    handles a run of events.
  - The `Controller` class holds `input`, `buffer` and `mode` as fields. Its
    `Step` and `Run` methods update them in place and are proved equal to
    `Next` and `Replay`.
  - `RenderInput` is the rule for what each box displays.
- **Data** (`data.dfy`): the store as the loop uses it. It is a table of
  rows whose `uuid` column is the primary key (`src/data.rs:40-48`).
  `DataStore.AppendOne` appends a row, or refuses one whose id is already
  present.
- **Errors** (`errors.dfy`): `Option`, `Result`, `Status`, and the two
  error kinds. `DBError` is the store's refusal and the only error the
  modelled loop ends with. `DateError` is `parse_date`'s failure; the loop itself
  never calls `parse_date`.

The store is a file in the configuration directory (`src/data.rs:32-37`),
and its table is created only if it does not exist yet
(`src/data.rs:40-49`), so rows persist from one session to the next.
`append_one` is not defined in `src/data.rs`. The model assumes it writes
the record's `id()` into the `uuid` column and fails only when that key is
already present. Under that assumption:

- the loop never sets a record's id, and `Expense::empty()` uses the
  all-zero id (`src/record.rs:31`);
- so, starting from an empty table, the first completed record is stored
  and every later one is refused with a database error, which ends the
  loop (`SecondRecordRefused`, `AtMostOneRecord`);
- a table that already holds the all-zero id, as after one earlier
  session, refuses even the first record (`DuplicateRefused`).

What the entry loop does, as the code is written:

- The boxes are walked name, tag, date, amount (`src/main.rs:137-148`).
- Committing the amount keeps the amount box open and starts a blank
  record (`src/main.rs:149-155`).
- `i` opens the name box and leaves the typed text as it is
  (`src/main.rs:63-68`).
- Esc in insert mode returns to normal mode and keeps the typed text
  (`src/main.rs:157-159`).
- Every other key, Backspace included, changes nothing (`src/main.rs:160`).
- Committing the amount appends the record with no further check
  (`src/main.rs:149-153`).
- A failed append ends the loop with the error (`src/main.rs:151`).
- A date text is handed to `set_date` and the amount box opens whatever
  `set_date` makes of it (`src/main.rs:145-148`).
- An amount text is handed to `set_amount` and the record is appended
  whatever `set_amount` makes of it; the amount box stays open
  (`src/main.rs:149-155`).

## Model

| member | source | states |
|---|---|---|
| Record.Expense.SetId | src/record.rs:59-61 | the id becomes `i`, the other four fields are unchanged, and the record then equals exactly the records whose id is `i` |
| Record.Expense.SetName | src/record.rs:63-65 | the name becomes the text verbatim, the other fields are unchanged, and the record still equals the old one |
| Record.Expense.SetTag | src/main.rs:142 | the tag becomes the text verbatim, the other fields are unchanged, and the record still equals the old one |
| Record.Expense.SetDate | src/main.rs:146 | a readable text sets the timestamp to its reading, an unreadable one keeps the old timestamp, and the other fields are unchanged |
| Record.Expense.SetAmount | src/main.rs:150 | a readable text sets the amount to its reading, an unreadable one keeps the old amount, and the other fields are unchanged |
| Record.New | src/record.rs:18-27 | every accessor of the new record returns the argument given for it |
| Record.Empty | src/record.rs:29-37 | the empty record has the all-zero id, empty name and tag, timestamp 0 and amount 0 |
| Record.Expense.Equals | src/record.rs:10-14 | two records are equal exactly when they coincide once name, tag, date and amount are disregarded |
| Record.EqualsIsIdentity | src/record.rs:10-14 | two records are equal iff their ids are equal, whatever their name, tag, date and amount |
| Record.EqualsIsEquivalence | src/record.rs:11-13 | record equality is reflexive, symmetric and transitive |
| Record.EmptiesAreEqual | src/record.rs:29-37 | any two empty records are equal, even after a different name or tag is written into each |
| Data.Append | src/data.rs:40-48 | an append succeeds iff no stored row has the record's id; on success the row is added at the end and nothing else changes, on failure the error is a database error |
| Data.AppendKeepsKeysUnique | src/data.rs:42 | an accepted append keeps the primary key unique, and the appended record is then held |
| Data.DuplicateRefused | src/data.rs:42 | a record whose id is already stored is refused with a database error |
| Data.DataStore.constructor | src/data.rs:17-22 | the store opens holding the given rows, whose ids are unique |
| Data.DataStore.AppendOne | src/main.rs:151 | the store's rows become the result of `Append`, or stay as they were when it fails, with the primary key unique throughout |
| Syntax.DaysInMonth | src/syntax.rs:9 | a month has 28 to 31 days: 29 iff it is February of a leap year, 30 iff it is April, June, September or November |
| Syntax.MakeDate | src/syntax.rs:15 | building a date succeeds iff the year, month and day name an existing day, and then keeps exactly those fields |
| Syntax.Decimal | src/syntax.rs:11 | `to_string` of a year or month gives digits whose value is the number, with no leading zero |
| Syntax.SignedDecimal | src/main.rs:313 | `to_string` of an amount starts with `-` iff it is negative, the digits that follow spell its magnitude, and they have no leading zero |
| Syntax.DigitRun | src/syntax.rs:9 | a numeric field reads the longest run of leading digits, at most its width |
| Syntax.Scan | src/syntax.rs:9 | a successful read of a format gives one number per numeric field |
| Syntax.ScanCountsLiteral | src/syntax.rs:8-9 | a text read by a format holds each non-digit separator exactly as often as the format does |
| Syntax.ScanLast | src/syntax.rs:9 | a single numeric field reads a fitting digit run as its value |
| Syntax.ScanField | src/syntax.rs:9 | a fitting digit run and a non-digit literal in front of a text that reads put the run's value in front of that text's values |
| Syntax.ScanThree | src/syntax.rs:9 | three digit runs that fit their widths, joined by two non-digit separators, read back as their values |
| Syntax.ScanLitInverse | src/syntax.rs:9 | a literal item that reads consumed exactly its character |
| Syntax.ScanNumInverse | src/syntax.rs:9 | a numeric item that reads consumed a non-empty digit run that fits its width and is not followed by another digit within it, and gives that run's value |
| Syntax.ScanLastShape | src/syntax.rs:9 | a text that reads against one numeric field is a fitting digit run and reads as its value |
| Syntax.FieldTail | src/syntax.rs:9 | a text that reads against a literal item starts with that literal |
| Syntax.ScanFieldShape | src/syntax.rs:9 | a text that reads against a numeric field and a literal is a fitting digit run, the literal, and a rest read by the remaining items |
| Syntax.ScanThreeShape | src/syntax.rs:9 | converse of ScanThree: a text that reads against a three-field format is three fitting digit runs joined by its two literals, read as their values |
| Syntax.ScanDmy | src/syntax.rs:9 | a `D/M/Y` text with fitting digit runs reads back as its day, month and year values |
| Syntax.ScanIso | src/syntax.rs:8 | a `Y-M-D` text with fitting digit runs reads back as its year, month and day values |
| Syntax.ReadIso | src/syntax.rs:8 | the ISO reading yields only valid calendar dates |
| Syntax.ReadDmy | src/syntax.rs:9 | the `DD/MM/YYYY` reading yields only valid calendar dates |
| Syntax.ReadIsoShape | src/syntax.rs:8 | whatever the ISO reading accepts is year, month and day digit runs joined by `-`, read as the date they spell |
| Syntax.ReadDmyShape | src/syntax.rs:9 | whatever the `DD/MM/YYYY` reading accepts is day, month and year digit runs joined by `/`, read as the date they spell |
| Syntax.WithYear | src/syntax.rs:11-14 | the completed text keeps the input in front and adds exactly one `/` and no `-` |
| Syntax.WithMonthYear | src/syntax.rs:18-24 | the completed text keeps the input in front and adds exactly two `/` and no `-` |
| Syntax.ParseDate | src/syntax.rs:7-29 | the result is a valid date; it succeeds iff one of the four readings does, and then it is the date of a reading that accepted the text; its error is a date error; a text readable as ISO gives the ISO reading |
| Syntax.ReadingsExclusive | src/syntax.rs:8-26 | at most one of the four readings accepts any text |
| Syntax.ParseDateIsTheAcceptingReading | src/syntax.rs:8-28 | whichever reading accepts the text, the parser returns that reading's date |
| Syntax.SplitAtLastSlash | src/syntax.rs:13-14 | two texts that each end in `/` and a digit run have the same last `/`, so the parts before and after it agree |
| Syntax.SplitAtTwoSlashes | src/syntax.rs:21-24 | two texts of three `/`-joined parts whose last two are digit runs have the same three parts |
| Syntax.DmyParts | src/syntax.rs:9 | a text the `DD/MM/YYYY` reading accepts yields its day, month and year runs and the date they spell |
| Syntax.ReadDayMonthShape | src/syntax.rs:10-16 | whatever the year completion accepts is a `D/M` text of one or two digit runs, read as that day and month of today's year |
| Syntax.DayPart | src/syntax.rs:20-25 | a text `s/m/y` that the `DD/MM/YYYY` reading accepts, with digit runs `m` and `y`, has a one- or two-digit day `s` and reads as that date |
| Syntax.ReadDayShape | src/syntax.rs:17-26 | whatever the month-and-year completion accepts is a lone one- or two-digit day, read as that day of today's month and year |
| Syntax.ReadingsNeedSeparators | src/syntax.rs:8-9 | an ISO date has exactly two `-` and no `/`, and a `DD/MM/YYYY` date has exactly two `/` and no `-`; any other text is refused by that reading |
| Syntax.ScanNeedsLeadingDigit | src/syntax.rs:9 | a format that opens with a numeric field refuses a text that opens with a non-digit |
| Syntax.LeadingNonDigitRefused | src/syntax.rs:7-26 | in the plain-digit grammar, a text that opens with anything but a digit is refused with a date error, whatever today is (a leading space or sign, which chrono accepts, is left out) |
| Syntax.IsoRoundTrip | src/syntax.rs:8 | the zero-padded ISO spelling of any valid date with a four-digit year parses back to that date, whatever today is |
| Syntax.DmyRoundTrip | src/syntax.rs:9 | the zero-padded `DD/MM/YYYY` spelling of any valid date parses back to that date, whatever today is |
| Syntax.DmyReading | src/syntax.rs:9-26 | a `D/M/Y` text is that day if it exists and an error otherwise; neither completion can rescue it |
| Syntax.DmyValue | src/syntax.rs:9 | a `D/M/Y` text with fitting digit runs, however it was assembled, reads as the day its runs name when that day exists, and not at all otherwise |
| Syntax.DmyOtherReadingsFail | src/syntax.rs:8-25 | a `D/M/Y` text is never an ISO date, and neither completion of it reads |
| Syntax.IsoReading | src/syntax.rs:8-26 | a `Y-M-D` text with fitting digit runs is that day if it exists and a date error otherwise; no later reading can rescue it |
| Syntax.IsoOtherReadingsFail | src/syntax.rs:9-25 | a `Y-M-D` text is never a `DD/MM/YYYY` date, and neither completion of it reads |
| Syntax.DayMonthOtherReadingsFail | src/syntax.rs:8-25 | a lone `D/M` is neither an ISO nor a `DD/MM/YYYY` date, and completing it with both month and year never reads |
| Syntax.DayMonthCompletion | src/syntax.rs:10-16 | `D/M` gives that day and month in today's year when that day exists, and a date error otherwise; stated for a current year below 10000 |
| Syntax.DayMonthFullReading | src/syntax.rs:10-15 | `D/M` completed with today's year reads as that day and month of today's year when it exists, and not at all otherwise; stated for a current year below 10000 |
| Syntax.DayEarlierReadingsFail | src/syntax.rs:8-16 | a lone `D` fails the ISO, `DD/MM/YYYY` and year-completion readings |
| Syntax.DayCompletion | src/syntax.rs:17-25 | `D` gives that day of today's month and year when the month has it, and a date error otherwise; stated for a current year below 10000 |
| Syntax.DayFullReading | src/syntax.rs:17-25 | `D` completed with today's month and year reads as that day of today's month when it exists, and not at all otherwise; stated for a current year below 10000 |
| Syntax.FullDatesIgnoreToday | src/syntax.rs:8-9 | when the text is a full date, today plays no part in the result |
| Syntax.ExampleDmy | src/syntax.rs:33-34 | `01/01/2018` parses to 2018-01-01 |
| Syntax.ExampleDayMonth | src/syntax.rs:35-36 | `01/12` parses to 2022-12-01 in June 2022 |
| Syntax.ExampleDay | src/syntax.rs:37-38 | `01` parses to 2022-06-01 in June 2022 |
| Syntax.ExampleDayTooLarge | src/syntax.rs:25 | `31` is refused in June 2022, since June has 30 days |
| Syntax.ExampleNotADate | src/syntax.rs:26 | `not-a-date` is refused with a date error, because it opens with a non-digit |
| App.Initial | src/main.rs:52-61 | the loop starts in normal mode with no typed text and the empty record |
| App.ExecMode | src/main.rs:63-68 | `i` opens the name box, and no other command changes the mode |
| App.Commit | src/main.rs:134-156 | committing never quits; it stores a row iff the box is the amount box and the append succeeds, and then adds exactly the filled record and starts a blank record in the amount box; a running commit empties the typed text; other boxes move on, keep the record's identity and store nothing; it fails iff the append fails, with a database error and the filled record kept |
| App.Next | src/main.rs:110-166 | one event grows the store by at most one row, and only by the amount-committed record in the amount box; the loop quits iff Esc arrives in normal mode; it fails only with a database error on Enter or Tab in the amount box, with the store unchanged |
| App.Replay | src/main.rs:105-168 | a run of events only extends the store, by at most one row per event |
| App.RenderInput | src/main.rs:293-318 | in normal mode every box is blank, and the open box shows the typed text |
| App.Controller.constructor | src/main.rs:52-61 | a new controller writes to the given store and starts in the initial state |
| App.Controller.Exec | src/main.rs:63-68 | `i` sets the mode to the name box, any other command keeps it, and the typed text and record are untouched |
| App.Controller.CommitField | src/main.rs:134-156 | committing updates the fields and the store exactly as `Commit` says, keeping the primary key unique |
| App.Controller.Step | src/main.rs:110-166 | one event updates the fields and the store exactly as `Next` says, keeping the primary key unique |
| App.Controller.Run | src/main.rs:105-168 | the loop over a list of events leaves the fields, the store and the outcome that `Replay` gives |
| App.NormalCharacter | src/main.rs:115-117 | in normal mode `i` opens the name box and any other character changes nothing |
| App.NormalOtherEvents | src/main.rs:118-124 | in normal mode Esc ends the loop without error, and any other non-character event changes nothing |
| App.InsertCharacter | src/main.rs:131-133 | a character typed into an open box goes at the end of the typed text and shows in that box; record, mode and store are unchanged |
| App.InsertOtherEvents | src/main.rs:160-163 | in an open box any key other than a character, Enter, Tab or Esc (Backspace included), and any non-key event, leaves the typed text, record, mode and store unchanged and the loop running |
| App.EnterIsTab | src/main.rs:134 | Enter and Tab have the same effect |
| App.CommitAdvances | src/main.rs:134-155 | committing moves name to tag, tag to date and date to amount; the amount box stays open; every commit that does not fail empties the typed text |
| App.CommitName | src/main.rs:137-140 | committing the name box stores the typed text verbatim as the name, keeps the other fields and the identity, and the name box then shows it |
| App.CommitTag | src/main.rs:141-144 | committing the tag box stores the typed text verbatim as the tag, keeps the other fields, and the tag box then shows it |
| App.CommitDate | src/main.rs:145-148 | committing the date box sets the timestamp to the text's reading, or keeps it when the text cannot be read; the other fields are kept |
| App.CommitAmount | src/main.rs:149-155 | the amount box stores the filled record exactly once and starts a blank form in the same box, with every box blank; if the store refuses it, the loop fails with a database error and neither the record nor the typed text is reset |
| App.EscThenResume | src/main.rs:157-159 | Esc closes the box and keeps the typed text and record, so a later `i` reopens the name box showing the leftover text |
| App.RenderClosedBox | src/main.rs:298-315 | a closed box shows the record's name or tag as stored, nothing for timestamp 0, the formatted date otherwise, and the amount in shortest decimal with no leading zero and a minus sign iff it is negative |
| App.BlankRecordShowsZeroAmount | src/main.rs:305-314 | on a blank record the closed amount box shows `0` and the other closed boxes are blank |
| App.ReplayConcat | src/main.rs:106-167 | handling two runs of events one after the other is handling their concatenation, unless the first run ended the loop |
| App.TypeText | src/main.rs:131-133 | typing a text into an open box appends it to the typed text and changes nothing else |
| App.TypeAndCommit | src/main.rs:131-156 | typing a text into an empty box and pressing Enter commits exactly that text |
| App.FirstRecordStored | src/main.rs:110-156 | from the start, `i` then four typed and committed boxes stores one record with the typed name and tag verbatim and the read date and amount, and leaves a blank form |
| App.NextKeepsKeysUnique | src/main.rs:151 | one event keeps the store's primary key unique |
| App.ReplayKeepsKeysUnique | src/main.rs:105-168 | a whole run keeps the store's primary key unique |
| App.NextKeepsZeroIds | src/main.rs:152 | no event gives a record an id: the record being filled and every stored record keep the all-zero id |
| App.ReplayKeepsZeroIds | src/main.rs:105-168 | a whole run keeps every id at zero |
| App.SecondRecordRefused | src/main.rs:149-153 | with one record stored, committing the next one fails with a database error and leaves the store unchanged |
| App.NextKeepsOneRecord | src/main.rs:149-153 | with every id zero, one event never takes a store of at most one record past one |
| App.ReplayKeepsOneRecord | src/main.rs:105-168 | a whole run from a store of at most one record leaves at most one record |
| App.AtMostOneRecord | src/main.rs:105-168 | starting from an empty store, no run of the loop ever stores more than one record |

## Left out

- Syntax.LeadingNonDigitRefused: holds in the plain-digit grammar; a leading space or sign, which chrono accepts (`" 01"`, `"+2018-01-01"`), is left out.
- App.Next: `run` also ends with an I/O error from `terminal.draw` or `event::read` (`src/main.rs:107`, `109`); those are not modelled, so `DBError` is the only error the modelled loop ends with.
- Terminal plumbing and drawing are not modelled: raw mode, the alternate screen, `crossterm::event::read`, and the tui layout and widgets (`src/main.rs:72-104`, `170-291`, `320-340`). Events are a list given to `Controller.Run`.
- The rows table and `render_table` (`src/main.rs:262-291`) are not modelled: `list_all` is not defined in `src/data.rs`.
- App.RenderInput: the date box shows `formatDate(timestamp)`, a parameter standing for chrono's `Utc.timestamp_nanos(..).date().to_string()`, whose formatting is not modelled.
- Record.Expense.SetDate, Record.Expense.SetAmount: `set_date` and `set_amount` are not defined in `src/record.rs`, so how they read text is a parameter (`Conversions`) that may refuse a text. A refused text keeps the old value.
- Record.Expense.SetTag: `set_tag` is not defined in `src/record.rs` either. It is modelled as storing its text verbatim, like `set_name`.
- Data.Append: `append_one` is not defined in `src/data.rs`. The model refuses exactly the rows whose id the `uuid` primary key already holds. Other SQLite failures (disk, I/O, locking) are not modelled.
- Data.DataStore.constructor: opening the database (config directory, `create_dir_all`, `Connection::open`, `CREATE TABLE`) is I/O. The store is opened on given rows instead, and `DataStore::new`'s failure is left out.
- `add_expense` (`src/data.rs:24-27`) is an empty stub, and nothing calls it.
- Syntax.ParseDate: chrono's leniencies are not modelled. chrono skips whitespace before any numeric field, and `NaiveDate::from_str` also allows whitespace before each `-` of the ISO form, and its format also ends with an optional run of whitespace, so `01/ 12`, `2018 -01-01` and `2018-01-01 ` (trailing space) are read by the source and refused by the model. Signed years (`+2018-01-01`) are not modelled either; only a signed `%Y` can carry more than four digits. The numeric fields read plain digit runs only.
- Syntax.ParseDate: `Local::today()` is a clock read, and the source reads it three separate times (`src/syntax.rs:11`, `18`, `19`), so across midnight at the turn of a month or year the three reads can disagree. The model reads it once: the parameter `Today` (year and month) serves all three.
- Syntax.DayMonthCompletion: stated for a current year below 10000, the years a four-digit `%Y` field can read back. From year 10000 on the source refuses the completed text, since `%Y` reads four of the five year digits and leaves one over; the model does the same, but the lemma does not state it.
- Syntax.DayMonthFullReading: stated for a current year below 10000, the years a four-digit `%Y` field can read back. From year 10000 on the source refuses the completed text, since `%Y` reads four of the five year digits and leaves one over; the model does the same, but the lemma does not state it.
- Syntax.DayCompletion: stated for a current year below 10000, the years a four-digit `%Y` field can read back. From year 10000 on the source refuses the completed text, since `%Y` reads four of the five year digits and leaves one over; the model does the same, but the lemma does not state it.
- Syntax.DayFullReading: stated for a current year below 10000, the years a four-digit `%Y` field can read back. From year 10000 on the source refuses the completed text, since `%Y` reads four of the five year digits and leaves one over; the model does the same, but the lemma does not state it.
- The error conversions in `src/errors.rs` have no logic. They also give no variant for chrono's parse error, so the `?` at `src/syntax.rs:26` is modelled as returning the date error `DateError`.
- Logging, `pretty_env_logger` and the exit path of `main` are not modelled.
- The other workspace members (`rbudget_data`, `backend`, `rbudget`) are not part of this model. They are network and database scaffolds.

=== FILE: data.dfy ===
/**
 * The expense store as the entry loop sees it: an append-only table of
 * records whose `uuid` column is the primary key.
 */
module Data {
  import opened Errors
  import opened Record

  /** No two stored records share an id: the primary key of the `expenses` table. */
  predicate UniqueIds(rows: seq<Expense>) {
    forall i, j | 0 <= i < j < |rows| :: rows[i].id != rows[j].id
  }

  /** Whether some stored record is the same expense as `e`. */
  predicate Holds(rows: seq<Expense>, e: Expense) {
    exists x | x in rows :: x.Equals(e)
  }

  /**
   * Appending one record: refused with a database error when its id is
   * already stored, otherwise the record goes to the end of the table.
   */
  function Append(rows: seq<Expense>, e: Expense): (r: Result<seq<Expense>>)
    ensures r.Ok? <==> !Holds(rows, e)
    ensures r.Err? ==> r.error == DBError
    ensures r.Ok? ==> |r.value| == |rows| + 1 && r.value[..|rows|] == rows && r.value[|rows|] == e
  {
    if Holds(rows, e) then Err(DBError) else Ok(rows + [e])
  }

  /** An accepted append keeps the primary key unique, and the new record is then held. */
  lemma {:induction false} AppendKeepsKeysUnique(rows: seq<Expense>, e: Expense)
    requires UniqueIds(rows)
    requires Append(rows, e).Ok?
    ensures UniqueIds(Append(rows, e).value)
    ensures Holds(Append(rows, e).value, e)
  {
    var r := Append(rows, e).value;
    forall i, j | 0 <= i < j < |r|
      ensures r[i].id != r[j].id
    {
      if j == |rows| {
        assert r[i] in rows && !r[i].Equals(e);
      } else {
        assert r[i] == rows[i] && r[j] == rows[j];
      }
    }
    assert r[|rows|] in r && r[|rows|].Equals(e);
  }

  /** A record whose id is already stored is refused with a database error. */
  lemma DuplicateRefused(rows: seq<Expense>, e: Expense, x: Expense)
    requires x in rows && x.id == e.id
    ensures Append(rows, e) == Err(DBError)
  {
  }

  /** The table of expenses behind the application. */
  class DataStore {
    var rows: seq<Expense>

    ghost predicate Valid()
      reads this
    {
      UniqueIds(rows)
    }

    /** Opens a store already holding `initial`. */
    constructor(initial: seq<Expense>)
      requires UniqueIds(initial)
      ensures rows == initial && Valid()
    {
      rows := initial;
    }

    /** Inserts one record; on a key clash the table is left as it was and the error is returned. */
    method AppendOne(e: Expense) returns (status: Status)
      requires Valid()
      modifies this
      ensures Valid()
      ensures status == (if Append(old(rows), e).Ok? then Pass else Fail(DBError))
      ensures status.Pass? ==> rows == Append(old(rows), e).value
      ensures status.Fail? ==> rows == old(rows)
    {
      var clash := Holds(rows, e);
      if clash {
        return Fail(DBError);
      }
      AppendKeepsKeysUnique(rows, e);
      rows := rows + [e];
      status := Pass;
    }
  }
}

=== FILE: errors.dfy ===
/** Failure-carrying values shared by the other modules, and the error kinds the core reports. */
module Errors {

  datatype Option<+T> = None | Some(value: T)

  /** The error kinds of the core: the entry loop ends on `DBError`; `DateError` is what `parse_date` returns. */
  datatype Error =
    | DBError    // the store refused a row: its `uuid` primary key is already present
    | DateError  // none of the readings of a date text succeeded

  /** A computation that yields a value or an error. */
  datatype Result<+T> = Ok(value: T) | Err(error: Error)

  /** A computation that yields nothing or an error. */
  datatype Status = Pass | Fail(error: Error)
}

=== FILE: main.dfy ===
/**
 * The entry loop of the expense tracker: a key-driven state machine that
 * fills an expense field by field (name, tag, date, amount) and hands the
 * finished record to the store.
 */
module App {
  import opened Errors
  import opened Record
  import opened Data
  import Syntax

  /** The four boxes of the entry form. */
  datatype Field = Name | Tag | Date | Amount

  datatype Mode = Normal | Insert(field: Field)

  /** What the loop keeps between two events: the text typed so far, the record being filled and the mode. */
  datatype State = State(input: string, buffer: Expense, mode: Mode)

  /** The keys the loop tells apart; every other key is `OtherKey`. */
  datatype KeyCode = Char(ch: char) | Enter | Tab | Esc | OtherKey

  /** A terminal event: a key press, or anything else (mouse, resize, focus). */
  datatype Event = Key(code: KeyCode) | OtherEvent

  /** How the date and amount setters read their text; both may refuse it. */
  datatype Conversions = Conversions(toTimestamp: string -> Option<I64>, toAmount: string -> Option<I32>)

  /** Whether the loop goes on, ends normally (Esc in normal mode) or ends with an error. */
  datatype Outcome = Running | Quit | Fatal(error: Error)

  /** The loop's state, the stored rows and the outcome after one or more events. */
  datatype Transition = Transition(state: State, rows: seq<Expense>, outcome: Outcome)

  /** The state the controller starts in. */
  function Initial(): (s: State)
    ensures s.input == "" && s.buffer == Empty() && s.mode == Normal
  {
    State("", Empty(), Normal)
  }

  /** The mode after a command typed in normal mode: `i` opens the name box, anything else is ignored. */
  function ExecMode(cmd: char, mode: Mode): (m: Mode)
    ensures cmd == 'i' ==> m == Insert(Name)
    ensures m != mode ==> cmd == 'i'
  {
    if cmd == 'i' then Insert(Name) else mode
  }

  /** The record once the typed text is committed into its amount. */
  function Filled(s: State, conv: Conversions): Expense {
    s.buffer.SetAmount(s.input, conv.toAmount)
  }

  /** Enter or Tab in the box `field`: the typed text goes into the record and the next box opens. */
  function Commit(s: State, field: Field, rows: seq<Expense>, conv: Conversions): (t: Transition)
    ensures !t.outcome.Quit?
    ensures t.rows != rows <==> field == Amount && Append(rows, Filled(s, conv)).Ok?
    ensures t.rows != rows ==> t.rows == rows + [Filled(s, conv)] && t.state == State("", Empty(), Insert(Amount))
    ensures t.outcome.Running? ==> t.state.input == "" && t.state.mode.Insert?
    ensures field != Amount ==> t.outcome.Running? && t.state.buffer.Equals(s.buffer) && t.state.mode != Insert(field)
    ensures t.outcome.Fatal? <==> field == Amount && Append(rows, Filled(s, conv)).Err?
    ensures t.outcome.Fatal? ==> t.outcome.error == DBError && t.state == s.(buffer := Filled(s, conv))
  {
    match field
    case Name => Transition(State("", s.buffer.SetName(s.input), Insert(Tag)), rows, Running)
    case Tag => Transition(State("", s.buffer.SetTag(s.input), Insert(Date)), rows, Running)
    case Date => Transition(State("", s.buffer.SetDate(s.input, conv.toTimestamp), Insert(Amount)), rows, Running)
    case Amount =>
      match Append(rows, Filled(s, conv))
      case Err(e) => Transition(s.(buffer := Filled(s, conv)), rows, Fatal(e))
      case Ok(stored) => Transition(State("", Empty(), Insert(Amount)), stored, Running)
  }

  /**
   * One event of the loop. The store only ever grows, by at most one
   * record, and only by the amount-committed record; the loop ends
   * normally only on Esc in normal mode and fails only when the store
   * refuses that record.
   */
  function Next(s: State, rows: seq<Expense>, ev: Event, conv: Conversions): (t: Transition)
    ensures rows <= t.rows && |t.rows| <= |rows| + 1
    ensures t.rows != rows ==> s.mode == Insert(Amount) && t.rows == rows + [Filled(s, conv)]
    ensures t.outcome.Quit? <==> s.mode == Normal && ev == Key(Esc)
    ensures t.outcome.Fatal? ==>
      t.outcome.error == DBError && t.rows == rows && s.mode == Insert(Amount) && ev in {Key(Enter), Key(Tab)}
  {
    match s.mode
    case Normal =>
      (match ev
       case Key(Char(ch)) => Transition(s.(mode := ExecMode(ch, s.mode)), rows, Running)
       case Key(Esc) => Transition(s, rows, Quit)
       case _ => Transition(s, rows, Running))
    case Insert(field) =>
      match ev
      case Key(Char(ch)) => Transition(s.(input := s.input + [ch]), rows, Running)
      case Key(Enter) => Commit(s, field, rows, conv)
      case Key(Tab) => Commit(s, field, rows, conv)
      case Key(Esc) => Transition(s.(mode := Normal), rows, Running)
      case _ => Transition(s, rows, Running)
  }

  /**
   * A run of the loop over `events`: it stops at the first event that ends
   * it, and the store it leaves extends the one it started from.
   */
  function Replay(s: State, rows: seq<Expense>, events: seq<Event>, conv: Conversions): (t: Transition)
    ensures rows <= t.rows && |t.rows| <= |rows| + |events|
    decreases |events|
  {
    if |events| == 0 then Transition(s, rows, Running)
    else
      var t := Next(s, rows, events[0], conv);
      if t.outcome.Running? then Replay(t.state, t.rows, events[1..], conv) else t
  }

  /** The key events of typing `text` character by character. */
  function Keys(text: string): (evs: seq<Event>)
    ensures |evs| == |text|
    ensures forall i | 0 <= i < |text| :: evs[i] == Key(Char(text[i]))
  {
    if text == "" then [] else [Key(Char(text[0]))] + Keys(text[1..])
  }

  /**
   * The text a field's box shows: nothing in normal mode; the typed text in
   * the open box; the record's value in the others, with a zero timestamp
   * shown as nothing and the amount in decimal.
   */
  function RenderInput(s: State, field: Field, formatDate: I64 -> string): (text: string)
    ensures s.mode.Normal? ==> text == ""
    ensures s.mode == Insert(field) ==> text == s.input
  {
    match s.mode
    case Normal => ""
    case Insert(f) =>
      if field == f then s.input
      else
        match field
        case Name => s.buffer.name
        case Tag => s.buffer.tag
        case Date => if s.buffer.date == 0 then "" else formatDate(s.buffer.date)
        case Amount => Syntax.SignedDecimal(s.buffer.amount)
  }

  /** The controller: the store it writes to and the state of the entry form. */
  class Controller {
    const datastore: DataStore
    const conv: Conversions
    var input: string
    var buffer: Expense
    var mode: Mode

    function Snapshot(): State
      reads this
    {
      State(input, buffer, mode)
    }

    constructor(store: DataStore, conversions: Conversions)
      ensures datastore == store && conv == conversions
      ensures Snapshot() == Initial()
    {
      datastore := store;
      conv := conversions;
      input := "";
      buffer := Empty();
      mode := Normal;
    }

    /** Runs a command typed in normal mode. */
    method Exec(cmd: char)
      modifies this
      ensures mode == ExecMode(cmd, old(mode))
      ensures input == old(input) && buffer == old(buffer)
    {
      if cmd == 'i' {
        mode := Insert(Name);
      }
    }

    /** Enter or Tab in the open box `field`. */
    method CommitField(field: Field) returns (outcome: Outcome)
      requires datastore.Valid() && mode == Insert(field)
      modifies this, datastore
      ensures datastore.Valid()
      ensures Transition(Snapshot(), datastore.rows, outcome) ==
        Commit(old(Snapshot()), field, old(datastore.rows), conv)
    {
      var inputVal := input;
      match field {
        case Name =>
          buffer := buffer.SetName(inputVal);
          mode := Insert(Tag);
        case Tag =>
          buffer := buffer.SetTag(inputVal);
          mode := Insert(Date);
        case Date =>
          buffer := buffer.SetDate(inputVal, conv.toTimestamp);
          mode := Insert(Amount);
        case Amount =>
          buffer := buffer.SetAmount(inputVal, conv.toAmount);
          var status := datastore.AppendOne(buffer);
          if status.Fail? {
            return Fatal(status.error);
          }
          buffer := Empty();
      }
      input := "";
      outcome := Running;
    }

    /** Handles one terminal event. */
    method Step(ev: Event) returns (outcome: Outcome)
      requires datastore.Valid()
      modifies this, datastore
      ensures datastore.Valid()
      ensures Transition(Snapshot(), datastore.rows, outcome) ==
        Next(old(Snapshot()), old(datastore.rows), ev, conv)
    {
      outcome := Running;
      match mode {
        case Normal =>
          match ev {
            case Key(Char(ch)) => Exec(ch);
            case Key(Esc) => outcome := Quit;
            case _ =>
          }
        case Insert(field) =>
          match ev {
            case Key(Char(ch)) => input := input + [ch];
            case Key(Enter) => outcome := CommitField(field);
            case Key(Tab) => outcome := CommitField(field);
            case Key(Esc) => mode := Normal;
            case _ =>
          }
      }
    }

    /** The loop: handles `events` in order until one of them ends it. */
    method Run(events: seq<Event>) returns (outcome: Outcome)
      requires datastore.Valid()
      modifies this, datastore
      ensures datastore.Valid()
      ensures Transition(Snapshot(), datastore.rows, outcome) ==
        Replay(old(Snapshot()), old(datastore.rows), events, conv)
    {
      outcome := Running;
      var k := 0;
      while k < |events| && outcome.Running?
        invariant 0 <= k <= |events|
        invariant datastore.Valid()
        invariant Replay(old(Snapshot()), old(datastore.rows), events, conv) ==
          if outcome.Running? then Replay(Snapshot(), datastore.rows, events[k..], conv)
          else Transition(Snapshot(), datastore.rows, outcome)
      {
        assert events[k..][0] == events[k] && events[k..][1..] == events[k + 1..];
        outcome := Step(events[k]);
        k := k + 1;
      }
    }
  }

  // ---------------------------------------------------------------------------
  // Normal mode

  /** In normal mode `i` opens the name box and any other character changes nothing. */
  lemma NormalCharacter(s: State, rows: seq<Expense>, c: char, conv: Conversions)
    requires s.mode == Normal
    ensures var t := Next(s, rows, Key(Char(c)), conv);
      && t.outcome == Running && t.rows == rows
      && t.state.input == s.input && t.state.buffer == s.buffer
      && (c == 'i' ==> t.state.mode == Insert(Name))
      && (c != 'i' ==> t.state == s)
  {
  }

  /** In normal mode Esc ends the loop without error; every other non-character event changes nothing. */
  lemma NormalOtherEvents(s: State, rows: seq<Expense>, ev: Event, conv: Conversions)
    requires s.mode == Normal
    requires !(ev.Key? && ev.code.Char?)
    ensures ev == Key(Esc) ==> Next(s, rows, ev, conv) == Transition(s, rows, Quit)
    ensures ev != Key(Esc) ==> Next(s, rows, ev, conv) == Transition(s, rows, Running)
  {
  }

  // ---------------------------------------------------------------------------
  // Insert mode

  /** A character typed into an open box is added at the end of the typed text, and shows in that box. */
  lemma InsertCharacter(s: State, rows: seq<Expense>, c: char, conv: Conversions, formatDate: I64 -> string)
    requires s.mode.Insert?
    ensures var t := Next(s, rows, Key(Char(c)), conv);
      && t.outcome == Running && t.rows == rows
      && t.state.input == s.input + [c]
      && t.state.buffer == s.buffer && t.state.mode == s.mode
      && RenderInput(t.state, s.mode.field, formatDate) == s.input + [c]
  {
  }

  /** In an open box every key but a character, Enter, Tab or Esc, and every non-key event, changes nothing. */
  lemma InsertOtherEvents(s: State, rows: seq<Expense>, ev: Event, conv: Conversions)
    requires s.mode.Insert?
    requires ev !in {Key(Enter), Key(Tab), Key(Esc)} && !(ev.Key? && ev.code.Char?)
    ensures Next(s, rows, ev, conv) == Transition(s, rows, Running)
  {
  }

  /** Enter and Tab are the same key to the loop. */
  lemma EnterIsTab(s: State, rows: seq<Expense>, conv: Conversions)
    ensures Next(s, rows, Key(Enter), conv) == Next(s, rows, Key(Tab), conv)
  {
  }

  /** Committing walks the boxes name, tag, date, amount, and every commit that does not fail empties the typed text. */
  lemma CommitAdvances(s: State, rows: seq<Expense>, ev: Event, conv: Conversions)
    requires s.mode.Insert? && ev in {Key(Enter), Key(Tab)}
    ensures var t := Next(s, rows, ev, conv);
      && (t.outcome.Running? ==> t.state.input == "")
      && (s.mode.field == Name ==> t.state.mode == Insert(Tag) && t.rows == rows && t.outcome.Running?)
      && (s.mode.field == Tag ==> t.state.mode == Insert(Date) && t.rows == rows && t.outcome.Running?)
      && (s.mode.field == Date ==> t.state.mode == Insert(Amount) && t.rows == rows && t.outcome.Running?)
      && (s.mode.field == Amount ==> t.state.mode == Insert(Amount))
  {
  }

  /**
   * Committing the name box stores the typed text verbatim as the name,
   * keeps the rest of the record, and the name box then shows that text.
   */
  lemma CommitName(s: State, rows: seq<Expense>, ev: Event, conv: Conversions, formatDate: I64 -> string)
    requires s.mode == Insert(Name) && ev in {Key(Enter), Key(Tab)}
    ensures var t := Next(s, rows, ev, conv);
      && t.state.buffer.name == s.input
      && t.state.buffer.id == s.buffer.id && t.state.buffer.tag == s.buffer.tag
      && t.state.buffer.date == s.buffer.date && t.state.buffer.amount == s.buffer.amount
      && t.state.buffer.Equals(s.buffer)
      && RenderInput(t.state, Name, formatDate) == s.input
  {
  }

  /** Committing the tag box stores the typed text verbatim as the tag, and the tag box then shows it. */
  lemma CommitTag(s: State, rows: seq<Expense>, ev: Event, conv: Conversions, formatDate: I64 -> string)
    requires s.mode == Insert(Tag) && ev in {Key(Enter), Key(Tab)}
    ensures var t := Next(s, rows, ev, conv);
      && t.state.buffer.tag == s.input
      && t.state.buffer.id == s.buffer.id && t.state.buffer.name == s.buffer.name
      && t.state.buffer.date == s.buffer.date && t.state.buffer.amount == s.buffer.amount
      && RenderInput(t.state, Tag, formatDate) == s.input
  {
  }

  /** Committing the date box reads the typed text as a timestamp; a text that cannot be read keeps the old date. */
  lemma CommitDate(s: State, rows: seq<Expense>, ev: Event, conv: Conversions)
    requires s.mode == Insert(Date) && ev in {Key(Enter), Key(Tab)}
    ensures var t := Next(s, rows, ev, conv);
      && (conv.toTimestamp(s.input).Some? ==> t.state.buffer.date == conv.toTimestamp(s.input).value)
      && (conv.toTimestamp(s.input).None? ==> t.state.buffer.date == s.buffer.date)
      && t.state.buffer.id == s.buffer.id && t.state.buffer.name == s.buffer.name
      && t.state.buffer.tag == s.buffer.tag && t.state.buffer.amount == s.buffer.amount
  {
  }

  /**
   * Committing the amount box stores the filled record exactly once and
   * starts a blank record in the same box, with every box then blank; when
   * the store refuses the record, the loop fails with that error and
   * neither the record nor the typed text is reset.
   */
  lemma CommitAmount(s: State, rows: seq<Expense>, ev: Event, conv: Conversions, formatDate: I64 -> string)
    requires s.mode == Insert(Amount) && ev in {Key(Enter), Key(Tab)}
    ensures var t := Next(s, rows, ev, conv);
      && Filled(s, conv).amount == (if conv.toAmount(s.input).Some? then conv.toAmount(s.input).value else s.buffer.amount)
      && (!Holds(rows, Filled(s, conv)) ==>
          && t.outcome == Running
          && t.rows == rows + [Filled(s, conv)]
          && t.state == State("", Empty(), Insert(Amount))
          && forall f :: RenderInput(t.state, f, formatDate) == "")
      && (Holds(rows, Filled(s, conv)) ==>
          && t.outcome == Fatal(DBError)
          && t.rows == rows
          && t.state.buffer == Filled(s, conv) && t.state.input == s.input)
  {
    if !Holds(rows, Filled(s, conv)) {
      var t := Next(s, rows, ev, conv);
      forall f
        ensures RenderInput(t.state, f, formatDate) == ""
      {
        if f == Amount {
          assert RenderInput(t.state, f, formatDate) == t.state.input;
        }
      }
    }
  }

  /**
   * Esc closes the open box but keeps the typed text and the record, so a
   * later `i` reopens the name box with the leftover text showing in it.
   */
  lemma EscThenResume(s: State, rows: seq<Expense>, conv: Conversions, formatDate: I64 -> string)
    requires s.mode.Insert?
    ensures Next(s, rows, Key(Esc), conv) == Transition(State(s.input, s.buffer, Normal), rows, Running)
    ensures Replay(s, rows, [Key(Esc), Key(Char('i'))], conv) ==
      Transition(State(s.input, s.buffer, Insert(Name)), rows, Running)
    ensures RenderInput(State(s.input, s.buffer, Insert(Name)), Name, formatDate) == s.input
  {
    var s1 := State(s.input, s.buffer, Normal);
    assert [Key(Esc), Key(Char('i'))][1..] == [Key(Char('i'))];
    assert Replay(s1, rows, [Key(Char('i'))], conv) == Transition(State(s.input, s.buffer, Insert(Name)), rows, Running);
  }

  // ---------------------------------------------------------------------------
  // Display

  /**
   * A box other than the open one shows the record: the name and tag as
   * stored, nothing for a zero timestamp, and the amount in its shortest
   * decimal spelling, with a minus sign exactly when it is negative.
   */
  lemma RenderClosedBox(s: State, field: Field, formatDate: I64 -> string)
    requires s.mode.Insert? && s.mode.field != field
    ensures field == Name ==> RenderInput(s, field, formatDate) == s.buffer.name
    ensures field == Tag ==> RenderInput(s, field, formatDate) == s.buffer.tag
    ensures field == Date && s.buffer.date == 0 ==> RenderInput(s, field, formatDate) == ""
    ensures field == Date && s.buffer.date != 0 ==> RenderInput(s, field, formatDate) == formatDate(s.buffer.date)
    ensures field == Amount ==>
      var text := RenderInput(s, field, formatDate);
      && |text| >= 1
      && (s.buffer.amount < 0 <==> text[0] == '-')
      && (s.buffer.amount >= 0 ==> Syntax.IsDigits(text) && Syntax.Value(text) == s.buffer.amount)
      && (s.buffer.amount < 0 ==> Syntax.IsDigits(text[1..]) && Syntax.Value(text[1..]) == -(s.buffer.amount as int))
      && (s.buffer.amount >= 0 && |text| > 1 ==> text[0] != '0')
      && (s.buffer.amount < 0 ==> |text| >= 2 && (|text| > 2 ==> text[1] != '0'))
  {
  }

  /** On a blank record every closed box is blank except the amount box, which shows `0`. */
  lemma BlankRecordShowsZeroAmount(input: string, f: Field, formatDate: I64 -> string)
    requires f != Amount
    ensures RenderInput(State(input, Empty(), Insert(f)), Amount, formatDate) == "0"
    ensures forall g | g != f && g != Amount :: RenderInput(State(input, Empty(), Insert(f)), g, formatDate) == ""
  {
    assert Syntax.Decimal(0) == "0";
  }

  // ---------------------------------------------------------------------------
  // Runs of the loop

  /** Handling `a` then `b` is handling `a + b`, unless `a` already ended the loop. */
  lemma {:induction false} ReplayConcat(s: State, rows: seq<Expense>, a: seq<Event>, b: seq<Event>, conv: Conversions)
    ensures Replay(s, rows, a + b, conv) ==
      var t := Replay(s, rows, a, conv);
      if t.outcome.Running? then Replay(t.state, t.rows, b, conv) else t
    decreases |a|
  {
    if |a| == 0 {
      assert a + b == b;
    } else {
      var t := Next(s, rows, a[0], conv);
      assert (a + b)[0] == a[0];
      assert (a + b)[1..] == a[1..] + b;
      if t.outcome.Running? {
        ReplayConcat(t.state, t.rows, a[1..], b, conv);
      }
    }
  }

  /** Typing a text into an open box adds it to the typed text and changes nothing else. */
  lemma {:induction false} TypeText(s: State, rows: seq<Expense>, text: string, conv: Conversions)
    requires s.mode.Insert?
    ensures Replay(s, rows, Keys(text), conv) == Transition(s.(input := s.input + text), rows, Running)
    decreases |text|
  {
    if text != "" {
      var s1 := s.(input := s.input + [text[0]]);
      assert Keys(text)[0] == Key(Char(text[0]));
      assert Keys(text)[1..] == Keys(text[1..]);
      TypeText(s1, rows, text[1..], conv);
      assert s1.input + text[1..] == s.input + text;
    }
  }

  /** The events of typing `text` into a box and committing it with Enter. */
  function Entry(text: string): (evs: seq<Event>)
    ensures |evs| == |text| + 1 && evs[|text|] == Key(Enter)
  {
    Keys(text) + [Key(Enter)]
  }

  /** Typing a text into an empty open box and pressing Enter commits exactly that text. */
  lemma TypeAndCommit(s: State, rows: seq<Expense>, text: string, conv: Conversions)
    requires s.mode.Insert? && s.input == ""
    ensures Replay(s, rows, Entry(text), conv) == Next(s.(input := text), rows, Key(Enter), conv)
  {
    ReplayConcat(s, rows, Keys(text), [Key(Enter)], conv);
    TypeText(s, rows, text, conv);
    assert s.input + text == text;
    var s1 := s.(input := text);
    assert Replay(s1, rows, [Key(Enter)], conv) == Next(s1, rows, Key(Enter), conv);
  }

  /**
   * From the start, `i` followed by four typed and committed boxes stores
   * one record holding the typed name and tag verbatim and the converted
   * date and amount, and leaves a blank form in the amount box.
   */
  lemma FirstRecordStored(name: string, tag: string, date: string, amount: string, conv: Conversions)
    ensures var stored := Empty().SetName(name).SetTag(tag).SetDate(date, conv.toTimestamp).SetAmount(amount, conv.toAmount);
      && stored.name == name && stored.tag == tag
      && Replay(Initial(), [], [Key(Char('i'))] + Entry(name) + Entry(tag) + Entry(date) + Entry(amount), conv) ==
         Transition(State("", Empty(), Insert(Amount)), [stored], Running)
  {
    var s0 := State("", Empty(), Insert(Name));
    var s1 := State("", s0.buffer.SetName(name), Insert(Tag));
    var s2 := State("", s1.buffer.SetTag(tag), Insert(Date));
    var s3 := State("", s2.buffer.SetDate(date, conv.toTimestamp), Insert(Amount));
    var stored := s3.buffer.SetAmount(amount, conv.toAmount);
    assert Replay(Initial(), [], [Key(Char('i'))], conv) == Transition(s0, [], Running);
    TypeAndCommit(s0, [], name, conv);
    TypeAndCommit(s1, [], tag, conv);
    TypeAndCommit(s2, [], date, conv);
    TypeAndCommit(s3, [], amount, conv);
    assert Append([], stored) == Ok([stored]);
    var e0 := [Key(Char('i'))];
    var e1 := e0 + Entry(name);
    var e2 := e1 + Entry(tag);
    var e3 := e2 + Entry(date);
    ReplayConcat(Initial(), [], e0, Entry(name), conv);
    ReplayConcat(Initial(), [], e1, Entry(tag), conv);
    ReplayConcat(Initial(), [], e2, Entry(date), conv);
    ReplayConcat(Initial(), [], e3, Entry(amount), conv);
  }

  // ---------------------------------------------------------------------------
  // The store seen from the loop

  /** One event keeps the store's primary key unique. */
  lemma NextKeepsKeysUnique(s: State, rows: seq<Expense>, ev: Event, conv: Conversions)
    requires UniqueIds(rows)
    ensures UniqueIds(Next(s, rows, ev, conv).rows)
  {
    if Next(s, rows, ev, conv).rows != rows {
      AppendKeepsKeysUnique(rows, Filled(s, conv));
    }
  }

  /** A whole run keeps the store's primary key unique. */
  lemma {:induction false} ReplayKeepsKeysUnique(s: State, rows: seq<Expense>, events: seq<Event>, conv: Conversions)
    requires UniqueIds(rows)
    ensures UniqueIds(Replay(s, rows, events, conv).rows)
    decreases |events|
  {
    if |events| > 0 {
      var t := Next(s, rows, events[0], conv);
      NextKeepsKeysUnique(s, rows, events[0], conv);
      if t.outcome.Running? {
        ReplayKeepsKeysUnique(t.state, t.rows, events[1..], conv);
      }
    }
  }

  /** The record being filled and every stored record carry the all-zero id. */
  predicate ZeroIds(s: State, rows: seq<Expense>) {
    s.buffer.id == ZeroId && forall x | x in rows :: x.id == ZeroId
  }

  /** No event gives a record an id: the loop never sets one, and the blank record's id is all zeros. */
  lemma NextKeepsZeroIds(s: State, rows: seq<Expense>, ev: Event, conv: Conversions)
    requires ZeroIds(s, rows)
    ensures ZeroIds(Next(s, rows, ev, conv).state, Next(s, rows, ev, conv).rows)
  {
    var t := Next(s, rows, ev, conv);
    if t.rows != rows {
      forall x | x in t.rows
        ensures x.id == ZeroId
      {
        assert x in rows || x == Filled(s, conv);
      }
    }
  }

  /** A whole run keeps every id at zero. */
  lemma {:induction false} ReplayKeepsZeroIds(s: State, rows: seq<Expense>, events: seq<Event>, conv: Conversions)
    requires ZeroIds(s, rows)
    ensures ZeroIds(Replay(s, rows, events, conv).state, Replay(s, rows, events, conv).rows)
    decreases |events|
  {
    if |events| > 0 {
      var t := Next(s, rows, events[0], conv);
      NextKeepsZeroIds(s, rows, events[0], conv);
      if t.outcome.Running? {
        ReplayKeepsZeroIds(t.state, t.rows, events[1..], conv);
      }
    }
  }

  /**
   * Once one record is stored, committing the next one is refused: both
   * carry the all-zero id, which the primary key already holds.
   */
  lemma SecondRecordRefused(s: State, x: Expense, ev: Event, conv: Conversions)
    requires s.mode == Insert(Amount) && ev in {Key(Enter), Key(Tab)}
    requires ZeroIds(s, [x])
    ensures Next(s, [x], ev, conv) == Transition(s.(buffer := Filled(s, conv)), [x], Fatal(DBError))
  {
    assert x in [x] && x.Equals(Filled(s, conv));
  }

  /**
   * With every id zero, a store holding one record refuses every further
   * one, so it never holds more than one.
   */
  lemma NextKeepsOneRecord(s: State, rows: seq<Expense>, ev: Event, conv: Conversions)
    requires ZeroIds(s, rows) && |rows| <= 1
    ensures |Next(s, rows, ev, conv).rows| <= 1
  {
    if |rows| == 1 {
      assert rows[0] in rows && rows[0].Equals(Filled(s, conv));
    }
  }

  /** A whole run from a store of at most one record leaves at most one record. */
  lemma {:induction false} ReplayKeepsOneRecord(s: State, rows: seq<Expense>, events: seq<Event>, conv: Conversions)
    requires ZeroIds(s, rows) && |rows| <= 1
    ensures |Replay(s, rows, events, conv).rows| <= 1
    decreases |events|
  {
    if |events| > 0 {
      var t := Next(s, rows, events[0], conv);
      NextKeepsZeroIds(s, rows, events[0], conv);
      NextKeepsOneRecord(s, rows, events[0], conv);
      if t.outcome.Running? {
        ReplayKeepsOneRecord(t.state, t.rows, events[1..], conv);
      }
    }
  }

  /** Starting from an empty store, no run of the loop ever stores more than one record. */
  lemma AtMostOneRecord(events: seq<Event>, conv: Conversions)
    ensures |Replay(Initial(), [], events, conv).rows| <= 1
  {
    ReplayKeepsOneRecord(Initial(), [], events, conv);
  }
}

=== FILE: record.dfy ===
/** The expense record: a 16-byte identity, two texts, a nanosecond timestamp and a 32-bit amount. */
module Record {
  import opened Errors

  type Byte = x: int | 0 <= x < 0x100

  /** A 16-byte identifier, `[u8; 16]`. */
  type Id = s: seq<Byte> | |s| == 16 witness ZeroId

  /** Signed 64-bit integer, the width of the date timestamp. */
  type I64 = x: int | -0x8000_0000_0000_0000 <= x < 0x8000_0000_0000_0000

  /** Signed 32-bit integer, the width of the amount. */
  type I32 = x: int | -0x8000_0000 <= x < 0x8000_0000

  /** The identifier of every empty record: sixteen zero bytes. */
  const ZeroId: seq<Byte> := [0, 0, 0, 0, 0, 0, 0, 0, 0, 0, 0, 0, 0, 0, 0, 0]

  datatype Expense = Expense(id: Id, name: string, tag: string, date: I64, amount: I32)
  {
    /** Identity-only equality: two records are the same expense exactly when their ids agree. */
    predicate Equals(other: Expense)
      ensures Equals(other) <==> this.(name := other.name, tag := other.tag, date := other.date, amount := other.amount) == other
    {
      id == other.id
    }

    /** Replaces the identifier in place; every other field is kept. */
    function SetId(i: Id): (r: Expense)
      ensures r.id == i
      ensures r.name == name && r.tag == tag && r.date == date && r.amount == amount
      ensures forall other: Expense :: r.Equals(other) <==> other.id == i
    {
      this.(id := i)
    }

    /** Stores the text verbatim as the name; the record stays the same expense. */
    function SetName(s: string): (r: Expense)
      ensures r.name == s
      ensures r.id == id && r.tag == tag && r.date == date && r.amount == amount
      ensures r.Equals(this)
    {
      this.(name := s)
    }

    /** Stores the text verbatim as the tag; the record stays the same expense. */
    function SetTag(s: string): (r: Expense)
      ensures r.tag == s
      ensures r.id == id && r.name == name && r.date == date && r.amount == amount
      ensures r.Equals(this)
    {
      this.(tag := s)
    }

    /** Converts the text to a timestamp with `toTimestamp`; a text it cannot read leaves the date as it was. */
    function SetDate(text: string, toTimestamp: string -> Option<I64>): (r: Expense)
      ensures toTimestamp(text).Some? ==> r.date == toTimestamp(text).value
      ensures toTimestamp(text).None? ==> r.date == date
      ensures r.id == id && r.name == name && r.tag == tag && r.amount == amount
    {
      match toTimestamp(text)
      case Some(ts) => this.(date := ts)
      case None => this
    }

    /** Converts the text to an amount with `toAmount`; a text it cannot read leaves the amount as it was. */
    function SetAmount(text: string, toAmount: string -> Option<I32>): (r: Expense)
      ensures toAmount(text).Some? ==> r.amount == toAmount(text).value
      ensures toAmount(text).None? ==> r.amount == amount
      ensures r.id == id && r.name == name && r.tag == tag && r.date == date
    {
      match toAmount(text)
      case Some(a) => this.(amount := a)
      case None => this
    }
  }

  /** A record with every field given, as read back from storage. */
  function New(id: Id, name: string, tag: string, date: I64, amount: I32): (e: Expense)
    ensures e.id == id && e.name == name && e.tag == tag && e.date == date && e.amount == amount
  {
    Expense(id, name, tag, date, amount)
  }

  /** The blank record an entry starts from. */
  function Empty(): (e: Expense)
    ensures e.id == ZeroId && e.name == "" && e.tag == "" && e.date == 0 && e.amount == 0
  {
    Expense(ZeroId, "", "", 0, 0)
  }

  /** Equality ignores name, tag, date and amount: it is decided by the ids alone. */
  lemma EqualsIsIdentity(a: Expense, b: Expense)
    ensures a.Equals(b) <==> a.id == b.id
    ensures a.Equals(b) <==> a.Equals(b.(name := a.name, tag := a.tag, date := a.date, amount := a.amount))
  {
  }

  /** Identity equality is an equivalence relation. */
  lemma EqualsIsEquivalence(a: Expense, b: Expense, c: Expense)
    ensures a.Equals(a)
    ensures a.Equals(b) ==> b.Equals(a)
    ensures a.Equals(b) && b.Equals(c) ==> a.Equals(c)
  {
  }

  /** Any two empty records compare equal, whatever is later written into their other fields. */
  lemma EmptiesAreEqual(s: string, t: string)
    ensures Empty().Equals(Empty())
    ensures Empty().SetName(s).Equals(Empty().SetTag(t))
  {
  }
}

=== FILE: syntax.dfy ===
/**
 * The cascading date parser. A date text is read as `YYYY-MM-DD`, then as
 * `DD/MM/YYYY`, then as `DD/MM` completed with today's year, then as `DD`
 * completed with today's month and year; the first reading that yields a
 * valid calendar date is the result.
 *
 * The formats are strftime-style lists of items, read the way chrono reads
 * them: a numeric field takes the longest run of digits up to its width (at
 * least one digit), a literal must match exactly, and no input may be left over.
 */
module Syntax {
  import opened Errors

  /** A day of the proleptic Gregorian calendar. */
  datatype Date = Date(year: int, month: int, day: int)

  type Month = m: int | 1 <= m <= 12 witness 1

  /** What the parser reads from the local clock: the current year and month. */
  datatype Today = Today(year: nat, month: Month)

  predicate IsLeapYear(y: int) {
    y % 4 == 0 && (y % 100 != 0 || y % 400 == 0)
  }

  function DaysInMonth(y: int, m: Month): (n: int)
    ensures 28 <= n <= 31
    ensures n == 29 <==> m == 2 && IsLeapYear(y)
    ensures n == 30 <==> m in {4, 6, 9, 11}
  {
    if m == 2 then (if IsLeapYear(y) then 29 else 28)
    else if m == 4 || m == 6 || m == 9 || m == 11 then 30
    else 31
  }

  /** The year, month and day name an existing calendar day. */
  predicate IsValidDate(y: int, m: int, d: int) {
    1 <= m <= 12 && 1 <= d <= DaysInMonth(y, m)
  }

  /** Building a date from its fields fails unless they name an existing day. */
  function MakeDate(y: int, m: int, d: int): (r: Option<Date>)
    ensures r.Some? <==> IsValidDate(y, m, d)
    ensures r.Some? ==> r.value.year == y && r.value.month == m && r.value.day == d
  {
    if IsValidDate(y, m, d) then Some(Date(y, m, d)) else None
  }

  // ---------------------------------------------------------------------------
  // Decimal digits

  predicate IsDigit(c: char) {
    '0' <= c <= '9'
  }

  predicate IsDigits(s: string) {
    forall i | 0 <= i < |s| :: IsDigit(s[i])
  }

  function DigitValue(c: char): nat
    requires IsDigit(c)
  {
    c as int - '0' as int
  }

  function DigitChar(v: nat): (c: char)
    requires v < 10
    ensures IsDigit(c) && DigitValue(c) == v
  {
    ('0' as int + v) as char
  }

  /** The number a run of decimal digits denotes, most significant digit first. */
  function Value(ds: string): nat
    requires IsDigits(ds)
  {
    if |ds| == 0 then 0 else 10 * Value(ds[..|ds| - 1]) + DigitValue(ds[|ds| - 1])
  }

  function Pow10(k: nat): (p: nat)
    ensures p >= 1
  {
    if k == 0 then 1 else 10 * Pow10(k - 1)
  }

  /** The shortest decimal spelling of `v`, as `to_string` writes a number. */
  function Decimal(v: nat): (r: string)
    ensures IsDigits(r) && 1 <= |r|
    ensures Value(r) == v
    ensures |r| > 1 ==> r[0] != '0'
  {
    if v < 10 then [DigitChar(v)]
    else
      var r := Decimal(v / 10) + [DigitChar(v % 10)];
      assert r[..|r| - 1] == Decimal(v / 10);
      r
  }

  /** `v` written with exactly `w` digits, filled with zeros on the left. */
  function Padded(v: nat, w: nat): (r: string)
    requires v < Pow10(w)
    ensures |r| == w && IsDigits(r)
    ensures Value(r) == v
  {
    if w == 0 then ""
    else
      var r := Padded(v / 10, w - 1) + [DigitChar(v % 10)];
      assert r[..|r| - 1] == Padded(v / 10, w - 1);
      r
  }

  /** An integer as `to_string` writes it: a minus sign for negatives, then the shortest decimal spelling. */
  function SignedDecimal(i: int): (r: string)
    ensures |r| >= 1
    ensures i < 0 <==> r[0] == '-'
    ensures i >= 0 ==> IsDigits(r) && Value(r) == i
    ensures i < 0 ==> IsDigits(r[1..]) && Value(r[1..]) == -i
    ensures i >= 0 ==> (|r| > 1 ==> r[0] != '0')
    ensures i < 0 ==> |r| >= 2 && (|r| > 2 ==> r[1] != '0')
  {
    if i < 0 then "-" + Decimal(-i) else Decimal(i)
  }

  lemma {:induction false} DecimalFits(v: nat, k: nat)
    requires 1 <= k && v < Pow10(k)
    ensures |Decimal(v)| <= k
  {
    if v >= 10 {
      assert v / 10 < Pow10(k - 1);
      DecimalFits(v / 10, k - 1);
    }
  }

  // ---------------------------------------------------------------------------
  // Formats

  /** One item of a format: a numeric field of at most `width` digits, or a literal character. */
  datatype Item = Num(width: nat) | Lit(c: char)

  /** `%Y-%m-%d`, the form `NaiveDate::from_str` accepts. */
  const IsoFormat: seq<Item> := [Num(4), Lit('-'), Num(2), Lit('-'), Num(2)]

  /** `%d/%m/%Y`. */
  const DmyFormat: seq<Item> := [Num(2), Lit('/'), Num(2), Lit('/'), Num(4)]

  /** How many characters a numeric field of width `w` consumes: the longest run of leading digits, at most `w`. */
  function DigitRun(s: string, w: nat): (n: nat)
    ensures n <= w && n <= |s|
    ensures IsDigits(s[..n])
    ensures n < w && n < |s| ==> !IsDigit(s[n])
  {
    if w == 0 || |s| == 0 || !IsDigit(s[0]) then 0
    else
      var n := 1 + DigitRun(s[1..], w - 1);
      assert s[..n] == [s[0]] + s[1..][..n - 1];
      n
  }

  function NumCount(fmt: seq<Item>): nat {
    if |fmt| == 0 then 0 else (if fmt[0].Num? then 1 else 0) + NumCount(fmt[1..])
  }

  function LitCount(fmt: seq<Item>, c: char): nat {
    if |fmt| == 0 then 0 else (if fmt[0] == Lit(c) then 1 else 0) + LitCount(fmt[1..], c)
  }

  /** Reads the whole of `s` against `fmt`, giving the values of its numeric fields in order. */
  function Scan(s: string, fmt: seq<Item>): (r: Option<seq<nat>>)
    ensures r.Some? ==> |r.value| == NumCount(fmt)
    decreases |fmt|
  {
    if |fmt| == 0 then (if s == "" then Some([]) else None)
    else match fmt[0]
      case Lit(c) => if |s| > 0 && s[0] == c then Scan(s[1..], fmt[1..]) else None
      case Num(w) =>
        var n := DigitRun(s, w);
        if n == 0 then None
        else match Scan(s[n..], fmt[1..])
          case None => None
          case Some(vs) => Some([Value(s[..n])] + vs)
  }

  /** A numeric field reads exactly a run of digits that fits its width and is not followed by another digit. */
  lemma DigitRunOf(p: string, rest: string, w: nat)
    requires IsDigits(p) && |p| <= w
    requires |p| == w || rest == "" || !IsDigit(rest[0])
    ensures DigitRun(p + rest, w) == |p|
  {
    var s := p + rest;
    var n := DigitRun(s, w);
    assert forall i | 0 <= i < |p| :: s[i] == p[i];
    assert |rest| > 0 ==> s[|p|] == rest[0];
  }

  lemma ScanLit(c: char, rest: string, fmt: seq<Item>)
    ensures Scan([c] + rest, [Lit(c)] + fmt) == Scan(rest, fmt)
  {
    assert ([c] + rest)[1..] == rest;
    assert ([Lit(c)] + fmt)[1..] == fmt;
  }

  lemma ScanNum(p: string, rest: string, w: nat, fmt: seq<Item>, vs: seq<nat>)
    requires IsDigits(p) && 1 <= |p| <= w
    requires |p| == w || rest == "" || !IsDigit(rest[0])
    requires Scan(rest, fmt) == Some(vs)
    ensures Scan(p + rest, [Num(w)] + fmt) == Some([Value(p)] + vs)
  {
    DigitRunOf(p, rest, w);
    assert (p + rest)[..|p|] == p;
    assert (p + rest)[|p|..] == rest;
    assert ([Num(w)] + fmt)[1..] == fmt;
  }

  /** Every successful scan spends exactly the format's occurrences of a non-digit character. */
  lemma {:induction false} ScanCountsLiteral(s: string, fmt: seq<Item>, c: char)
    requires !IsDigit(c) && Scan(s, fmt).Some?
    ensures multiset(s)[c] == LitCount(fmt, c)
    decreases |fmt|
  {
    if |fmt| > 0 {
      match fmt[0]
      case Lit(d) =>
        ScanCountsLiteral(s[1..], fmt[1..], c);
        assert s == [s[0]] + s[1..];
      case Num(w) =>
        var n := DigitRun(s, w);
        ScanCountsLiteral(s[n..], fmt[1..], c);
        assert s == s[..n] + s[n..];
        assert c !in s[..n];
    }
  }

  lemma AppendAssoc(p: string, q: string, r: string)
    ensures p + (q + r) == p + q + r
  {
  }

  /** A single numeric field reads a fitting digit run as its value. */
  lemma ScanLast(c: string, w: nat)
    requires IsDigits(c) && 1 <= |c| <= w
    ensures Scan(c, [Num(w)]) == Some([Value(c)])
  {
    assert Scan("", []) == Some([]);
    ScanNum(c, "", w, [], []);
    assert c + "" == c && [Num(w)] + [] == [Num(w)] && [Value(c)] + [] == [Value(c)];
  }

  /** A fitting digit run and a non-digit literal in front of a text that reads put their value in front of its values. */
  lemma ScanField(a: string, x: char, t: string, w: nat, fmt: seq<Item>, vs: seq<nat>)
    requires IsDigits(a) && 1 <= |a| <= w && !IsDigit(x)
    requires Scan(t, fmt) == Some(vs)
    ensures Scan(a + [x] + t, [Num(w), Lit(x)] + fmt) == Some([Value(a)] + vs)
  {
    ScanLit(x, t, fmt);
    ScanNum(a, [x] + t, w, [Lit(x)] + fmt, vs);
    assert a + [x] + t == a + ([x] + t);
    assert [Num(w), Lit(x)] + fmt == [Num(w)] + ([Lit(x)] + fmt);
  }

  /** Three numeric fields separated by two non-digit literals read back as the numbers they spell. */
  lemma ScanThree(a: string, b: string, c: string, wa: nat, wb: nat, wc: nat, x: char, y: char)
    requires IsDigits(a) && 1 <= |a| <= wa
    requires IsDigits(b) && 1 <= |b| <= wb
    requires IsDigits(c) && 1 <= |c| <= wc
    requires !IsDigit(x) && !IsDigit(y)
    ensures Scan(a + [x] + b + [y] + c, [Num(wa), Lit(x), Num(wb), Lit(y), Num(wc)]) == Some([Value(a), Value(b), Value(c)])
  {
    var f2: seq<Item> := [Num(wc)];
    var f1 := [Num(wb), Lit(y)] + f2;
    ScanLast(c, wc);
    ScanField(b, y, c, wb, f2, [Value(c)]);
    ScanField(a, x, b + [y] + c, wa, f1, [Value(b)] + [Value(c)]);
    AppendAssoc(a + [x], b + [y], c);
    AppendAssoc(a + [x], b, [y]);
    ThreeFieldFormat(wa, x, wb, y, wc);
    ThreeValues(Value(a), Value(b), Value(c));
  }

  lemma ThreeFieldFormat(wa: nat, x: char, wb: nat, y: char, wc: nat)
    ensures [Num(wa), Lit(x)] + ([Num(wb), Lit(y)] + [Num(wc)]) == [Num(wa), Lit(x), Num(wb), Lit(y), Num(wc)]
  {
  }

  lemma ThreeValues(a: nat, b: nat, c: nat)
    ensures [a] + ([b] + [c]) == [a, b, c]
  {
  }

  /** A successful literal item consumed exactly its character. */
  lemma ScanLitInverse(s: string, c: char, fmt: seq<Item>)
    requires Scan(s, [Lit(c)] + fmt).Some?
    ensures |s| > 0 && s[0] == c
    ensures Scan(s[1..], fmt) == Scan(s, [Lit(c)] + fmt)
  {
    assert ([Lit(c)] + fmt)[0] == Lit(c) && ([Lit(c)] + fmt)[1..] == fmt;
  }

  /** A successful numeric item consumed a non-empty run of digits that fits its width. */
  lemma ScanNumInverse(s: string, w: nat, fmt: seq<Item>) returns (n: nat)
    requires Scan(s, [Num(w)] + fmt).Some?
    ensures 1 <= n <= w && n <= |s| && IsDigits(s[..n])
    ensures n < w && n < |s| ==> !IsDigit(s[n])
    ensures Scan(s[n..], fmt).Some?
    ensures Scan(s, [Num(w)] + fmt).value == [Value(s[..n])] + Scan(s[n..], fmt).value
  {
    assert ([Num(w)] + fmt)[0] == Num(w) && ([Num(w)] + fmt)[1..] == fmt;
    n := DigitRun(s, w);
  }

  /** `s` is three digit runs that fit their widths, joined by the literals `x` and `y`. */
  predicate Spells(s: string, a: string, b: string, c: string, wa: nat, wb: nat, wc: nat, x: char, y: char) {
    IsDigits(a) && 1 <= |a| <= wa &&
    IsDigits(b) && 1 <= |b| <= wb &&
    IsDigits(c) && 1 <= |c| <= wc &&
    s == a + [x] + b + [y] + c
  }

  /**
   * The converse of `ScanThree`: a text that reads against a three-field
   * format is three fitting digit runs joined by the format's literals, and
   * the values read are the numbers those runs spell.
   */
  lemma ScanThreeShape(s: string, wa: nat, wb: nat, wc: nat, x: char, y: char)
    requires Scan(s, [Num(wa), Lit(x), Num(wb), Lit(y), Num(wc)]).Some?
    ensures exists a, b, c :: (Spells(s, a, b, c, wa, wb, wc, x, y) &&
      Scan(s, [Num(wa), Lit(x), Num(wb), Lit(y), Num(wc)]).value == [Value(a), Value(b), Value(c)])
  {
    var f2: seq<Item> := [Num(wc)];
    var f1 := [Num(wb), Lit(y)] + f2;
    assert [Num(wa), Lit(x)] + f1 == [Num(wa), Lit(x), Num(wb), Lit(y), Num(wc)];
    var a, t1 := ScanFieldShape(s, wa, x, f1);
    var b, t2 := ScanFieldShape(t1, wb, y, f2);
    var c := ScanLastShape(t2, wc);
    AppendAssoc(a + [x], b + [y], c);
    AppendAssoc(a + [x], b, [y]);
    assert [Value(a)] + ([Value(b)] + [Value(c)]) == [Value(a), Value(b), Value(c)];
    assert Spells(s, a, b, c, wa, wb, wc, x, y);
  }

  /** A numeric field followed by a literal consumed a fitting digit run and then that literal. */
  lemma ScanFieldShape(s: string, w: nat, x: char, fmt: seq<Item>) returns (a: string, t: string)
    requires Scan(s, [Num(w), Lit(x)] + fmt).Some?
    ensures IsDigits(a) && 1 <= |a| <= w
    ensures s == a + [x] + t
    ensures Scan(t, fmt).Some?
    ensures Scan(s, [Num(w), Lit(x)] + fmt).value == [Value(a)] + Scan(t, fmt).value
  {
    var f0 := [Lit(x)] + fmt;
    assert [Num(w), Lit(x)] + fmt == [Num(w)] + f0;
    var n := ScanNumInverse(s, w, f0);
    a := s[..n];
    t := FieldTail(s[n..], x, fmt);
    assert s == a + s[n..];
  }

  /** A literal item consumed exactly its character; `t` is what follows it. */
  lemma FieldTail(s: string, x: char, fmt: seq<Item>) returns (t: string)
    requires Scan(s, [Lit(x)] + fmt).Some?
    ensures s == [x] + t
    ensures Scan(t, fmt) == Scan(s, [Lit(x)] + fmt)
  {
    ScanLitInverse(s, x, fmt);
    t := s[1..];
  }

  /** A text that reads against a single numeric field is a fitting digit run. */
  lemma ScanLastShape(s: string, w: nat) returns (c: string)
    requires Scan(s, [Num(w)]).Some?
    ensures IsDigits(c) && 1 <= |c| <= w && s == c
    ensures Scan(s, [Num(w)]).value == [Value(c)]
  {
    assert [Num(w)] == [Num(w)] + [];
    var n := ScanNumInverse(s, w, []);
    assert Scan(s[n..], []).Some?;
    assert s[n..] == "";
    c := s[..n];
    assert s == c + s[n..];
  }

  /** The three numeric fields of a `DD/MM/YYYY` text. */
  lemma ScanDmy(dd: string, mm: string, yy: string)
    requires IsDigits(dd) && 1 <= |dd| <= 2
    requires IsDigits(mm) && 1 <= |mm| <= 2
    requires IsDigits(yy) && 1 <= |yy| <= 4
    ensures Scan(dd + "/" + mm + "/" + yy, DmyFormat) == Some([Value(dd), Value(mm), Value(yy)])
  {
    ScanThree(dd, mm, yy, 2, 2, 4, '/', '/');
  }

  /** The three numeric fields of a `YYYY-MM-DD` text. */
  lemma ScanIso(yy: string, mm: string, dd: string)
    requires IsDigits(yy) && 1 <= |yy| <= 4
    requires IsDigits(mm) && 1 <= |mm| <= 2
    requires IsDigits(dd) && 1 <= |dd| <= 2
    ensures Scan(yy + "-" + mm + "-" + dd, IsoFormat) == Some([Value(yy), Value(mm), Value(dd)])
  {
    ScanThree(yy, mm, dd, 4, 2, 2, '-', '-');
  }

  // ---------------------------------------------------------------------------
  // The readings

  /** Reads `YYYY-MM-DD`. */
  function ReadIso(s: string): (r: Option<Date>)
    ensures r.Some? ==> IsValidDate(r.value.year, r.value.month, r.value.day)
  {
    match Scan(s, IsoFormat)
    case None => None
    case Some(v) =>
      assert NumCount(IsoFormat) == 3;
      MakeDate(v[0], v[1], v[2])
  }

  /** Reads `DD/MM/YYYY`. */
  function ReadDmy(s: string): (r: Option<Date>)
    ensures r.Some? ==> IsValidDate(r.value.year, r.value.month, r.value.day)
  {
    match Scan(s, DmyFormat)
    case None => None
    case Some(v) =>
      assert NumCount(DmyFormat) == 3;
      MakeDate(v[2], v[1], v[0])
  }

  /** Whatever the ISO reading accepts is a year, a month and a day digit run joined by `-`, read as the numbers they spell. */
  lemma ReadIsoShape(s: string)
    requires ReadIso(s).Some?
    ensures exists yy, mm, dd :: (Spells(s, yy, mm, dd, 4, 2, 2, '-', '-') &&
      ReadIso(s).value == Date(Value(yy), Value(mm), Value(dd)))
  {
    ScanThreeShape(s, 4, 2, 2, '-', '-');
    var yy, mm, dd :| Spells(s, yy, mm, dd, 4, 2, 2, '-', '-') &&
      Scan(s, IsoFormat).value == [Value(yy), Value(mm), Value(dd)];
    assert ReadIso(s).value == Date(Value(yy), Value(mm), Value(dd));
  }

  /** Whatever the `DD/MM/YYYY` reading accepts is a day, a month and a year digit run joined by `/`, read as the numbers they spell. */
  lemma ReadDmyShape(s: string)
    requires ReadDmy(s).Some?
    ensures exists dd, mm, yy :: (Spells(s, dd, mm, yy, 2, 2, 4, '/', '/') &&
      ReadDmy(s).value == Date(Value(yy), Value(mm), Value(dd)))
  {
    ScanThreeShape(s, 2, 2, 4, '/', '/');
    var dd, mm, yy :| Spells(s, dd, mm, yy, 2, 2, 4, '/', '/') &&
      Scan(s, DmyFormat).value == [Value(dd), Value(mm), Value(yy)];
    assert ReadDmy(s).value == Date(Value(yy), Value(mm), Value(dd));
  }

  /** The input completed with `/` and today's year: one more `/`, no more `-`, the input kept in front. */
  function WithYear(input: string, today: Today): (r: string)
    ensures |r| > |input| && r[..|input|] == input
    ensures multiset(r)['/'] == multiset(input)['/'] + 1
    ensures multiset(r)['-'] == multiset(input)['-']
  {
    NoDigitIn(Decimal(today.year), '/');
    NoDigitIn(Decimal(today.year), '-');
    var r := input + "/" + Decimal(today.year);
    assert r[..|input|] == input;
    r
  }

  /** The input completed with `/`, today's month, `/` and today's year: two more `/`, no more `-`, the input kept in front. */
  function WithMonthYear(input: string, today: Today): (r: string)
    ensures |r| > |input| && r[..|input|] == input
    ensures multiset(r)['/'] == multiset(input)['/'] + 2
    ensures multiset(r)['-'] == multiset(input)['-']
  {
    NoDigitIn(Decimal(today.month), '/');
    NoDigitIn(Decimal(today.month), '-');
    NoDigitIn(Decimal(today.year), '/');
    NoDigitIn(Decimal(today.year), '-');
    var r := input + "/" + Decimal(today.month) + "/" + Decimal(today.year);
    assert r[..|input|] == input;
    r
  }

  /**
   * The date a text names, trying the four readings in order; when none
   * yields a valid day the result is a DateError.
   */
  function ParseDate(input: string, today: Today): (r: Result<Date>)
    ensures r.Ok? ==> IsValidDate(r.value.year, r.value.month, r.value.day)
    ensures r.Ok? <==>
      || ReadIso(input).Some?
      || ReadDmy(input).Some?
      || ReadDmy(WithYear(input, today)).Some?
      || ReadDmy(WithMonthYear(input, today)).Some?
    ensures r.Err? ==> r.error == DateError
    ensures ReadIso(input).Some? ==> r == Ok(ReadIso(input).value)
    ensures r.Ok? ==>
      || (ReadIso(input).Some? && r.value == ReadIso(input).value)
      || (ReadDmy(input).Some? && r.value == ReadDmy(input).value)
      || (ReadDmy(WithYear(input, today)).Some? && r.value == ReadDmy(WithYear(input, today)).value)
      || (ReadDmy(WithMonthYear(input, today)).Some? && r.value == ReadDmy(WithMonthYear(input, today)).value)
  {
    match ReadIso(input)
    case Some(d) => Ok(d)
    case None =>
      match ReadDmy(input)
      case Some(d) => Ok(d)
      case None =>
        match ReadDmy(WithYear(input, today))
        case Some(d) => Ok(d)
        case None =>
          match ReadDmy(WithMonthYear(input, today))
          case Some(d) => Ok(d)
          case None => Err(DateError)
  }

  // ---------------------------------------------------------------------------
  // Properties of the parser

  lemma NoDigitIn(s: string, c: char)
    requires IsDigits(s) && !IsDigit(c)
    ensures multiset(s)[c] == 0
  {
    assert c !in s;
  }

  /**
   * An ISO date text has exactly two `-` and no `/`; a `DD/MM/YYYY` text
   * has exactly two `/` and no `-`.
   */
  lemma ReadingsNeedSeparators(s: string)
    ensures multiset(s)['-'] != 2 || multiset(s)['/'] != 0 ==> ReadIso(s).None?
    ensures multiset(s)['/'] != 2 || multiset(s)['-'] != 0 ==> ReadDmy(s).None?
  {
    if Scan(s, IsoFormat).Some? {
      ScanCountsLiteral(s, IsoFormat, '-');
      ScanCountsLiteral(s, IsoFormat, '/');
    }
    if Scan(s, DmyFormat).Some? {
      ScanCountsLiteral(s, DmyFormat, '/');
      ScanCountsLiteral(s, DmyFormat, '-');
    }
  }

  /** A format that opens with a numeric field refuses a text that opens with a non-digit. */
  lemma ScanNeedsLeadingDigit(s: string, fmt: seq<Item>)
    requires |s| > 0 && !IsDigit(s[0])
    requires |fmt| > 0 && fmt[0].Num?
    ensures Scan(s, fmt).None?
  {
  }

  /**
   * Every reading opens with a number, so in this plain-digit grammar a
   * text that opens with anything else is refused, whatever today is. (A
   * leading space or sign, which chrono accepts, is not part of the grammar.)
   */
  lemma LeadingNonDigitRefused(s: string, today: Today)
    requires |s| > 0 && !IsDigit(s[0])
    ensures ParseDate(s, today) == Err(DateError)
  {
    ScanNeedsLeadingDigit(s, IsoFormat);
    ScanNeedsLeadingDigit(s, DmyFormat);
    var partial := WithYear(s, today);
    assert partial[0] == partial[..|s|][0];
    ScanNeedsLeadingDigit(partial, DmyFormat);
    var full := WithMonthYear(s, today);
    assert full[0] == full[..|s|][0];
    ScanNeedsLeadingDigit(full, DmyFormat);
  }

  /** At most one of the four readings accepts a text: their separator counts differ. */
  lemma ReadingsExclusive(s: string, today: Today)
    ensures ReadIso(s).Some? ==>
      ReadDmy(s).None? && ReadDmy(WithYear(s, today)).None? && ReadDmy(WithMonthYear(s, today)).None?
    ensures ReadDmy(s).Some? ==> ReadDmy(WithYear(s, today)).None? && ReadDmy(WithMonthYear(s, today)).None?
    ensures ReadDmy(WithYear(s, today)).Some? ==> ReadDmy(WithMonthYear(s, today)).None?
  {
    ReadingsNeedSeparators(s);
    ReadingsNeedSeparators(WithYear(s, today));
    ReadingsNeedSeparators(WithMonthYear(s, today));
  }

  /** Whichever reading accepts the text, the parser's result is that reading's date. */
  lemma ParseDateIsTheAcceptingReading(s: string, today: Today)
    ensures ReadIso(s).Some? ==> ParseDate(s, today) == Ok(ReadIso(s).value)
    ensures ReadDmy(s).Some? ==> ParseDate(s, today) == Ok(ReadDmy(s).value)
    ensures ReadDmy(WithYear(s, today)).Some? ==>
      ParseDate(s, today) == Ok(ReadDmy(WithYear(s, today)).value)
    ensures ReadDmy(WithMonthYear(s, today)).Some? ==>
      ParseDate(s, today) == Ok(ReadDmy(WithMonthYear(s, today)).value)
  {
    ReadingsExclusive(s, today);
  }

  /** Two texts that each end in `/` and a digit run split at that same last `/`. */
  lemma SplitAtLastSlash(p: string, u: string, q: string, v: string)
    requires IsDigits(u) && IsDigits(v)
    requires p + "/" + u == q + "/" + v
    ensures p == q && u == v
  {
    var w := p + "/" + u;
    assert w[|p|] == '/';
    assert w == q + "/" + v;
    assert w[|q|] == '/';
    assert p == w[..|p|] == q;
    assert u == w[|p| + 1..] == v;
  }

  /**
   * Whatever the year completion accepts is a `D/M` text, one or two day
   * digits and one or two month digits, read as that day and month of
   * today's year.
   */
  lemma ReadDayMonthShape(s: string, today: Today)
    requires ReadDmy(WithYear(s, today)).Some?
    ensures exists dd, mm :: (IsDigits(dd) && 1 <= |dd| <= 2 && IsDigits(mm) && 1 <= |mm| <= 2 &&
      s == dd + "/" + mm &&
      ReadDmy(WithYear(s, today)).value == Date(today.year, Value(mm), Value(dd)))
  {
    var dd, mm, yy := DmyParts(WithYear(s, today));
    assert WithYear(s, today) == (dd + "/" + mm) + "/" + yy;
    SplitAtLastSlash(s, Decimal(today.year), dd + "/" + mm, yy);
  }

  /**
   * Whatever the month-and-year completion accepts is a lone `D`, one or
   * two digits, read as that day of today's month and year. (The day is
   * named `dd` in the second clause only to keep the solver from unfolding
   * `Value` on `s` against the reading it was drawn from.)
   */
  lemma ReadDayShape(s: string, today: Today)
    requires ReadDmy(WithMonthYear(s, today)).Some?
    ensures IsDigits(s) && 1 <= |s| <= 2
    ensures exists dd :: (IsDigits(dd) && s == dd &&
      ReadDmy(WithMonthYear(s, today)).value == Date(today.year, today.month, Value(dd)))
  {
    var m, y := Decimal(today.month), Decimal(today.year);
    var w := WithMonthYear(s, today);
    assert w == s + "/" + m + "/" + y;
    DayPart(s, m, y, w);
  }

  /** A text `s/m/y` with digit runs `m` and `y` that the `DD/MM/YYYY` reading accepts has a day run `s`. */
  lemma DayPart(s: string, m: string, y: string, w: string)
    requires IsDigits(m) && IsDigits(y)
    requires w == s + "/" + m + "/" + y && ReadDmy(w).Some?
    ensures IsDigits(s) && 1 <= |s| <= 2
    ensures ReadDmy(w).value == Date(Value(y), Value(m), Value(s))
  {
    var dd, mm, yy := DmyParts(w);
    SplitAtTwoSlashes(s, m, y, dd, mm, yy);
  }

  /** The day, month and year runs of a text the `DD/MM/YYYY` reading accepts. */
  lemma DmyParts(w: string) returns (dd: string, mm: string, yy: string)
    requires ReadDmy(w).Some?
    ensures Spells(w, dd, mm, yy, 2, 2, 4, '/', '/')
    ensures ReadDmy(w).value == Date(Value(yy), Value(mm), Value(dd))
  {
    ReadDmyShape(w);
    dd, mm, yy :| Spells(w, dd, mm, yy, 2, 2, 4, '/', '/') &&
      ReadDmy(w).value == Date(Value(yy), Value(mm), Value(dd));
  }

  /** Two texts of three `/`-joined parts, the last two digit runs, have the same parts. */
  lemma SplitAtTwoSlashes(p: string, u: string, v: string, q: string, x: string, y: string)
    requires IsDigits(u) && IsDigits(v) && IsDigits(x) && IsDigits(y)
    requires p + "/" + u + "/" + v == q + ['/'] + x + ['/'] + y
    ensures p == q && u == x && v == y
  {
    assert (p + "/" + u) + "/" + v == (q + "/" + x) + "/" + y;
    SplitAtLastSlash(p + "/" + u, v, q + "/" + x, y);
    SplitAtLastSlash(p, u, q, x);
  }

  /** The ISO spelling chrono prints for a date of years 0 to 9999. */
  function IsoText(d: Date): string
    requires 0 <= d.year < 10000 && 1 <= d.month <= 12 && 1 <= d.day <= 31
  {
    Padded(d.year, 4) + "-" + Padded(d.month, 2) + "-" + Padded(d.day, 2)
  }

  /** The `DD/MM/YYYY` spelling of a date of years 0 to 9999. */
  function DmyText(d: Date): string
    requires 0 <= d.year < 10000 && 1 <= d.month <= 12 && 1 <= d.day <= 31
  {
    Padded(d.day, 2) + "/" + Padded(d.month, 2) + "/" + Padded(d.year, 4)
  }

  /** A date already in ISO form is returned as that date, whatever today is. */
  lemma IsoRoundTrip(d: Date, today: Today)
    requires 0 <= d.year < 10000 && IsValidDate(d.year, d.month, d.day)
    ensures ParseDate(IsoText(d), today) == Ok(d)
  {
    ScanIso(Padded(d.year, 4), Padded(d.month, 2), Padded(d.day, 2));
  }

  /** A date in `DD/MM/YYYY` form is returned as that date, whatever today is. */
  lemma DmyRoundTrip(d: Date, today: Today)
    requires 0 <= d.year < 10000 && IsValidDate(d.year, d.month, d.day)
    ensures ParseDate(DmyText(d), today) == Ok(d)
  {
    var s := DmyText(d);
    NoDigitIn(Padded(d.day, 2), '-');
    NoDigitIn(Padded(d.month, 2), '-');
    NoDigitIn(Padded(d.year, 4), '-');
    assert multiset(s)['-'] == 0;
    ReadingsNeedSeparators(s);
    ScanDmy(Padded(d.day, 2), Padded(d.month, 2), Padded(d.year, 4));
  }

  /** Neither full reading accepts a lone day and month, and neither does the month-and-year completion. */
  lemma DayMonthOtherReadingsFail(dd: string, mm: string, today: Today)
    requires IsDigits(dd) && IsDigits(mm)
    ensures ReadIso(dd + "/" + mm).None? && ReadDmy(dd + "/" + mm).None?
    ensures ReadDmy(WithMonthYear(dd + "/" + mm, today)).None?
  {
    var s := dd + "/" + mm;
    NoDigitIn(dd, '/');
    NoDigitIn(mm, '/');
    assert multiset(s)['/'] == 1;
    ReadingsNeedSeparators(s);
    ReadingsNeedSeparators(WithMonthYear(s, today));
  }

  /**
   * A day and a month, `DD/MM`, are completed with today's year; the text
   * is accepted exactly when that names an existing day.
   */
  lemma DayMonthCompletion(dd: string, mm: string, today: Today)
    requires IsDigits(dd) && 1 <= |dd| <= 2
    requires IsDigits(mm) && 1 <= |mm| <= 2
    requires today.year < 10000
    ensures ParseDate(dd + "/" + mm, today) ==
      if IsValidDate(today.year, Value(mm), Value(dd))
      then Ok(Date(today.year, Value(mm), Value(dd)))
      else Err(DateError)
  {
    DayMonthOtherReadingsFail(dd, mm, today);
    DayMonthFullReading(dd, mm, today);
  }

  /** A `D/M` text completed with today's year reads as that day and month of today's year, if it exists. */
  lemma DayMonthFullReading(dd: string, mm: string, today: Today)
    requires IsDigits(dd) && 1 <= |dd| <= 2
    requires IsDigits(mm) && 1 <= |mm| <= 2
    requires today.year < 10000
    ensures ReadDmy(WithYear(dd + "/" + mm, today)) == MakeDate(today.year, Value(mm), Value(dd))
  {
    DecimalFits(today.year, 4);
    assert Pow10(4) == 10000;
    DmyValue(dd, mm, Decimal(today.year), WithYear(dd + "/" + mm, today));
  }

  /** A `D/M/Y` text with fitting digit runs, however it was built, reads as the date its runs name, if that date exists. */
  lemma DmyValue(dd: string, mm: string, yy: string, w: string)
    requires IsDigits(dd) && 1 <= |dd| <= 2
    requires IsDigits(mm) && 1 <= |mm| <= 2
    requires IsDigits(yy) && 1 <= |yy| <= 4
    requires w == dd + "/" + mm + "/" + yy
    ensures ReadDmy(w) == MakeDate(Value(yy), Value(mm), Value(dd))
  {
    ScanDmy(dd, mm, yy);
  }

  /** None of the three earlier readings accepts a lone day. */
  lemma DayEarlierReadingsFail(dd: string, today: Today)
    requires IsDigits(dd)
    ensures ReadIso(dd).None? && ReadDmy(dd).None?
    ensures ReadDmy(WithYear(dd, today)).None?
  {
    NoDigitIn(dd, '/');
    ReadingsNeedSeparators(dd);
    ReadingsNeedSeparators(WithYear(dd, today));
  }

  /**
   * A day alone, `DD`, is completed with today's month and year; it is
   * accepted exactly when the current month has that day.
   */
  lemma DayCompletion(dd: string, today: Today)
    requires IsDigits(dd) && 1 <= |dd| <= 2
    requires today.year < 10000
    ensures ParseDate(dd, today) ==
      if 1 <= Value(dd) <= DaysInMonth(today.year, today.month)
      then Ok(Date(today.year, today.month, Value(dd)))
      else Err(DateError)
  {
    DayEarlierReadingsFail(dd, today);
    DayFullReading(dd, today);
  }

  /** A lone `D` completed with today's month and year reads as that day of today's month, if it exists. */
  lemma DayFullReading(dd: string, today: Today)
    requires IsDigits(dd) && 1 <= |dd| <= 2
    requires today.year < 10000
    ensures ReadDmy(WithMonthYear(dd, today)) == MakeDate(today.year, today.month, Value(dd))
  {
    DecimalFits(today.year, 4);
    assert Pow10(4) == 10000;
    DecimalFits(today.month, 2);
    assert Pow10(2) == 100;
    var m, y := Decimal(today.month), Decimal(today.year);
    DmyValue(dd, m, y, WithMonthYear(dd, today));
  }

  /** When the text is a full date, today plays no part in the result. */
  lemma FullDatesIgnoreToday(s: string, t1: Today, t2: Today)
    requires ReadIso(s).Some? || ReadDmy(s).Some?
    ensures ParseDate(s, t1) == ParseDate(s, t2)
  {
  }

  /**
   * A text of the shape `D/M/Y` (one or two day digits, one or two month
   * digits, one to four year digits) is read as that day, month and year
   * and as nothing else: when they name no existing day the text is refused.
   */
  lemma DmyReading(dd: string, mm: string, yy: string, today: Today)
    requires IsDigits(dd) && 1 <= |dd| <= 2
    requires IsDigits(mm) && 1 <= |mm| <= 2
    requires IsDigits(yy) && 1 <= |yy| <= 4
    ensures ParseDate(dd + "/" + mm + "/" + yy, today) ==
      if IsValidDate(Value(yy), Value(mm), Value(dd))
      then Ok(Date(Value(yy), Value(mm), Value(dd)))
      else Err(DateError)
  {
    DmyOtherReadingsFail(dd, mm, yy, today);
    ScanDmy(dd, mm, yy);
  }

  /** A `D/M/Y` text is never an ISO date, and neither completion of it reads. */
  lemma DmyOtherReadingsFail(dd: string, mm: string, yy: string, today: Today)
    requires IsDigits(dd) && IsDigits(mm) && IsDigits(yy)
    ensures ReadIso(dd + "/" + mm + "/" + yy).None?
    ensures ReadDmy(WithYear(dd + "/" + mm + "/" + yy, today)).None?
    ensures ReadDmy(WithMonthYear(dd + "/" + mm + "/" + yy, today)).None?
  {
    var s := dd + "/" + mm + "/" + yy;
    NoDigitIn(dd, '/');
    NoDigitIn(mm, '/');
    NoDigitIn(yy, '/');
    assert multiset(s)['/'] == 2;
    ReadingsNeedSeparators(s);
    ReadingsNeedSeparators(WithYear(s, today));
    ReadingsNeedSeparators(WithMonthYear(s, today));
  }

  /**
   * A text of the shape `Y-M-D` (one to four year digits, one or two month
   * digits, one or two day digits) is read as that year, month and day and
   * as nothing else: when they name no existing day the text is refused.
   */
  lemma IsoReading(yy: string, mm: string, dd: string, today: Today)
    requires IsDigits(yy) && 1 <= |yy| <= 4
    requires IsDigits(mm) && 1 <= |mm| <= 2
    requires IsDigits(dd) && 1 <= |dd| <= 2
    ensures ParseDate(yy + "-" + mm + "-" + dd, today) ==
      if IsValidDate(Value(yy), Value(mm), Value(dd))
      then Ok(Date(Value(yy), Value(mm), Value(dd)))
      else Err(DateError)
  {
    IsoOtherReadingsFail(yy, mm, dd, today);
    ScanIso(yy, mm, dd);
  }

  /** A `Y-M-D` text is never a `DD/MM/YYYY` date, and neither completion of it reads. */
  lemma IsoOtherReadingsFail(yy: string, mm: string, dd: string, today: Today)
    requires IsDigits(yy) && IsDigits(mm) && IsDigits(dd)
    ensures ReadDmy(yy + "-" + mm + "-" + dd).None?
    ensures ReadDmy(WithYear(yy + "-" + mm + "-" + dd, today)).None?
    ensures ReadDmy(WithMonthYear(yy + "-" + mm + "-" + dd, today)).None?
  {
    var s := yy + "-" + mm + "-" + dd;
    NoDigitIn(yy, '-');
    NoDigitIn(mm, '-');
    NoDigitIn(dd, '-');
    assert multiset(s)['-'] == 2;
    ReadingsNeedSeparators(s);
    ReadingsNeedSeparators(WithYear(s, today));
    ReadingsNeedSeparators(WithMonthYear(s, today));
  }

  // The examples below take their text through a parameter fixed by a
  // `requires`, and the values of its digit runs come from the small
  // `ValueOf` lemmas: the text then reaches `ParseDate` only through the
  // general reading lemmas above, instead of the verifier unfolding the
  // scanner character by character on a literal string.

  lemma ValueOf01()
    ensures Value("01") == 1
  {
  }

  lemma ValueOf12()
    ensures Value("12") == 12
  {
  }

  lemma ValueOf31()
    ensures Value("31") == 31
  {
  }

  lemma ValueOf2018()
    ensures Value("2018") == 2018
  {
    assert "2018"[..3] == "201" && "201"[..2] == "20" && "20"[..1] == "2";
  }

  /** The cases the repository checks, with today in June 2022. */
  lemma ExampleDmy(s: string, t: Today)
    requires s == "01/01/2018"
    ensures ParseDate(s, t) == Ok(Date(2018, 1, 1))
  {
    ValueOf01();
    ValueOf2018();
    assert s == "01" + "/" + "01" + "/" + "2018";
    DmyReading("01", "01", "2018", t);
  }

  lemma ExampleDayMonth(s: string, t: Today)
    requires s == "01/12" && t == Today(2022, 6)
    ensures ParseDate(s, t) == Ok(Date(2022, 12, 1))
  {
    ValueOf01();
    ValueOf12();
    assert s == "01" + "/" + "12";
    DayMonthCompletion("01", "12", t);
  }

  lemma ExampleDay(s: string, t: Today)
    requires s == "01" && t == Today(2022, 6)
    ensures ParseDate(s, t) == Ok(Date(2022, 6, 1))
  {
    ValueOf01();
    DayCompletion(s, t);
  }

  /** June has no 31st, so a bare `31` is refused in June. */
  lemma ExampleDayTooLarge(s: string, t: Today)
    requires s == "31" && t == Today(2022, 6)
    ensures ParseDate(s, t) == Err(DateError)
  {
    ValueOf31();
    DayCompletion(s, t);
  }

  lemma ExampleNotADate(s: string, t: Today)
    requires s == "not-a-date"
    ensures ParseDate(s, t) == Err(DateError)
  {
    LeadingNonDigitRefused(s, t);
  }
}
